=== FILE: README.md ===
# Viewer watchdog and directory-search paging, in Dafny

This project models two sequential cores of the viewer's `newview` code.

**The liveness watchdog** (`llwatchdog.cpp`). Each watched activity owns a timeout entry. An entry holds a timeout, a diagnostic "ping state" and a timer. The entry registers itself in the watchdog's registry when it starts and deregisters when it stops. A polling thread repeatedly sweeps the registry. If any registered entry is not alive, the sweep stops the poller and raises a fatal signal.

- `watchdog_timeout.dfy` (module `WatchdogTimeout`) models the entry as an immutable record. Time is an abstract clock in milliseconds.
- `watchdog.dfy` (module `Watchdog`) models the whole watchdog as one `World` record, with pure transition functions. The record holds:
  - the clock;
  - every constructed entry;
  - the registry, a set of entry ids;
  - the two pointers the watchdog owns (the mutex and the poller), each null, live, or deleted-but-not-cleared;
  - an `aborted` flag standing for the fatal signal.

**Directory-search paging and filtering** (`llpaneldirbrowser.cpp`). `dir_browser.dfy` (module `DirBrowser`) covers:

- the page arithmetic (`nextPage`, `prevPage`, `resetSearchStart`);
- the Next-button rule and row trimming of `showNextButton`;
- the type `createLandSale` gives a parcel;
- the row filters of the land and event reply handlers;
- routing of replies by query id through the global table, and the reset done by `setupNewSearch`.

Some source behaviour that the proofs make explicit:

- A fresh entry is dead at every instant, although its default timer counts as started. So a ping alone, with a positive timeout and no `start`, brings it to life (`FreshEntryPinged`). An entry with timeout 0 is already dead at the instant it is pinged.
- `cleanup` deletes the mutex and the poller but leaves both pointers set. So an `init` after `cleanup` does nothing (`InitAfterCleanupIsNoop`).
- `showNextButton` trims a reply so that the rows shown so far equal `min(received, perPage)`. Once the rows received before a reply already exceed a page, the trimmed count of that reply is negative. A negative count only means that no row of that reply is read.
- In the land handler, the value `showNextButton` returns is discarded. The Next button depends only on the cumulative count of rows received, auctions and filtered rows included. The non-auction count passed in changes nothing visible (`LandNextIgnoresAuctions`).

## Model

| member | source | states |
|---|---|---|
| WatchdogTimeout.IsAlive | linden/indra/newview/llwatchdog.cpp:103-106 | liveness only ends as the clock advances: an entry alive at an instant is started and unexpired at every earlier instant, and one dead at an instant is dead at every later instant |
| WatchdogTimeout.New | linden/indra/newview/llwatchdog.cpp:91-97 | a new entry has timeout 0, the "uninitialized" ping state and a default timer that counts as started, yet it is alive at no instant |
| WatchdogTimeout.SetTimeout | linden/indra/newview/llwatchdog.cpp:108-111 | sets the timeout and nothing else: the ping state and the timer are kept, so liveness is unchanged at every instant |
| WatchdogTimeout.Ping | linden/indra/newview/llwatchdog.cpp:129-136 | an empty state keeps the old ping state and a non-empty one replaces it; afterwards the entry is alive at a later instant iff its timer was started and that instant is before now + timeout; started flag and timeout unchanged |
| WatchdogTimeout.Arm | linden/indra/newview/llwatchdog.cpp:113-119 | starting the timer and then pinging makes the entry alive exactly until now + timeout |
| WatchdogTimeout.Halt | linden/indra/newview/llwatchdog.cpp:123-127 | clears the timer's started flag, so the entry is alive at no instant; timeout and ping state are kept |
| WatchdogTimeout.PingThenWait | linden/indra/newview/llwatchdog.cpp:103-106 | a started entry pinged at t is still alive at t + dt iff dt < timeout |
| WatchdogTimeout.AliveRightAfterPing | linden/indra/newview/llwatchdog.cpp:129-136 | a started entry is alive at the instant of a ping iff its timeout is positive |
| WatchdogTimeout.DeadStaysDead | linden/indra/newview/llwatchdog.cpp:103-106 | without a ping, an entry dead at one instant is dead at every later instant |
| WatchdogTimeout.FreshEntryPinged | linden/indra/newview/llwatchdog.cpp:91-111 | a fresh entry given timeout d and pinged at t, with no start, is alive exactly before t + d |
| WatchdogTimeout.HaltIdempotent | linden/indra/newview/llwatchdog.cpp:123-127 | stopping the timer twice equals stopping it once |
| Watchdog.Boot | linden/indra/newview/llwatchdog.cpp:139-143 | the watchdog starts with an empty registry and no mutex or poller, and satisfies the registry invariant |
| Watchdog.LockThread | linden/indra/newview/llwatchdog.cpp:217-223 | takes the lock when a mutex exists; with no mutex nothing changes; nothing but the mutex changes |
| Watchdog.UnlockThread | linden/indra/newview/llwatchdog.cpp:225-231 | releases the lock when a mutex exists; with no mutex nothing changes |
| Watchdog.Add | linden/indra/newview/llwatchdog.cpp:149-154 | afterwards an id is registered iff it is the added one or was registered before; nothing else changes; the lock is free again; the invariant is kept when the added id is a constructed entry |
| Watchdog.Remove | linden/indra/newview/llwatchdog.cpp:156-161 | afterwards an id is registered iff it was before and is not the removed one; nothing else changes; the lock is free again |
| Watchdog.Init | linden/indra/newview/llwatchdog.cpp:163-172 | creates a free mutex and a poller sleeping 1000 ms only when both pointers are null; otherwise the state is unchanged |
| Watchdog.StopPoller | linden/indra/newview/llwatchdog.cpp:50-54 | sets the poller's stopping flag, keeps its sleep, and advances the clock by the 1 ms sleep |
| Watchdog.Cleanup | linden/indra/newview/llwatchdog.cpp:174-186 | a live poller and mutex become deleted pointers and null ones stay null, so with neither present nothing changes; stopping a live poller costs its 1 ms sleep; registry, entries and the abort flag are kept |
| Watchdog.Run | linden/indra/newview/llwatchdog.cpp:188-215 | the sweep aborts iff some registered entry is not alive; when it aborts, a present poller is set stopping first, which costs its 1 ms sleep; when every entry is alive the state is unchanged |
| Watchdog.PollerStep | linden/indra/newview/llwatchdog.cpp:56-63 | a stopping or absent poller does nothing; a healthy sweep only advances the clock by the sleep; a sweep that finds a dead entry aborts and leaves the poller stopping; an abort is never undone and the clock never runs backwards |
| Watchdog.PollerRun | linden/indra/newview/llwatchdog.cpp:56-63 | any number of poller turns keeps the registry, the entries and the invariant, never undoes an abort, and never moves the clock backwards |
| Watchdog.Construct | linden/indra/newview/llwatchdog.cpp:93-97 | the new entry exists and is exactly a fresh timeout entry, unregistered and alive at no instant; every other entry is unchanged |
| Watchdog.ConstructedEntryPinged | linden/indra/newview/llwatchdog.cpp:91-136 | a newly constructed entry given timeout d and pinged, never started, is alive exactly until d ms after the ping |
| Watchdog.SetEntryTimeout | linden/indra/newview/llwatchdog.cpp:108-111 | the entry afterwards is the old entry with only its timeout replaced; every other entry, the registry and the sweep's verdict are unchanged |
| Watchdog.Start | linden/indra/newview/llwatchdog.cpp:113-121 | afterwards the entry is registered, its timer is started, it keeps its timeout and is alive exactly until now + timeout, with the ping state rule applied; no other entry or registration changes |
| Watchdog.PingEntry | linden/indra/newview/llwatchdog.cpp:129-136 | refreshes one entry's deadline, keeps its timeout and its timer's started flag, and applies the ping state rule, without touching the registry or other entries |
| Watchdog.Stop | linden/indra/newview/llwatchdog.cpp:123-127 | afterwards the entry is unregistered, its timer is stopped and it is never alive, with its timeout and ping state kept; no other entry or registration changes, nor the clock, the poller or the abort flag |
| Watchdog.PingAfterStopStaysDead | linden/indra/newview/llwatchdog.cpp:123-136 | a ping after a stop leaves the entry dead at every instant: only start restarts its timer |
| Watchdog.Destroy | linden/indra/newview/llwatchdog.cpp:75-78 | a destroyed entry is neither registered nor existing; other registrations and entries are kept, and so are the clock, the poller, the abort flag and the mutex |
| Watchdog.InitIdempotent | linden/indra/newview/llwatchdog.cpp:163-172 | a second init is a no-op |
| Watchdog.InitAfterCleanupIsNoop | linden/indra/newview/llwatchdog.cpp:174-186 | since cleanup leaves its pointers set, an init after a cleanup that deleted something does nothing |
| Watchdog.AddRegisteredIsNoop | linden/indra/newview/llwatchdog.cpp:149-154 | adding an already registered entry leaves the state unchanged |
| Watchdog.RemoveAbsentIsNoop | linden/indra/newview/llwatchdog.cpp:156-161 | removing an unregistered entry leaves the state unchanged |
| Watchdog.AddCommutes | linden/indra/newview/llwatchdog.cpp:149-154 | registration order does not matter |
| Watchdog.StopIdempotent | linden/indra/newview/llwatchdog.cpp:123-127 | stopping an entry twice equals stopping it once |
| Watchdog.LockingIsInvisible | linden/indra/newview/llwatchdog.cpp:217-231 | add, remove and run give the same state with or without a mutex, apart from the mutex itself |
| Watchdog.StoppedEntryIsNotSwept | linden/indra/newview/llwatchdog.cpp:188-198 | after an entry stops, the sweep finds a dead entry iff some other registered entry is dead |
| Watchdog.MissedHeartbeatAborts | linden/indra/newview/llwatchdog.cpp:188-212 | an entry started and then not pinged for at least its timeout makes the next sweep abort |
| Watchdog.StoppedPollerIsIdle | linden/indra/newview/llwatchdog.cpp:56-63 | once the stopping flag is set, any number of poller turns changes nothing |
| Watchdog.AbortEndsPolling | linden/indra/newview/llwatchdog.cpp:198-204 | the poller turn that finds a dead entry aborts, and every later turn does nothing |
| Watchdog.HealthyPollingOnlySleeps | linden/indra/newview/llwatchdog.cpp:56-63 | while every registered entry is alive at the last of n sweeps, n poller turns only advance the clock by n sleeps |
| DirBrowser.NewPanel | linden/indra/newview/llpaneldirbrowser.cpp:76-106 | a new panel is on the first page with 100 results per page, nothing received, no results, both page buttons hidden |
| DirBrowser.ShowNextButton | linden/indra/newview/llpaneldirbrowser.cpp:1265-1286 | for panels other than "all_panel": Next shows iff received > perPage, and rows received before the reply plus the rows kept equal min(received, perPage). For "all_panel": rows unchanged and both buttons hidden. Only the buttons change |
| DirBrowser.NextPage | linden/indra/newview/llpaneldirbrowser.cpp:148-154 | the start grows by one page and Prev shows |
| DirBrowser.PrevPage | linden/indra/newview/llpaneldirbrowser.cpp:158-164 | the start shrinks by one page and Prev shows iff the new start is positive |
| DirBrowser.ResetSearchStart | linden/indra/newview/llpaneldirbrowser.cpp:167-172 | the start is 0 and both page buttons are hidden |
| DirBrowser.PrevUndoesNext | linden/indra/newview/llpaneldirbrowser.cpp:148-164 | Prev after Next restores the start, and Prev then shows iff the original start was positive |
| DirBrowser.NextUndoesPrev | linden/indra/newview/llpaneldirbrowser.cpp:148-164 | Next after Prev restores the start |
| DirBrowser.PagesAdvance | linden/indra/newview/llpaneldirbrowser.cpp:148-154 | k clicks on Next advance the start by k pages |
| DirBrowser.PagesFromReset | linden/indra/newview/llpaneldirbrowser.cpp:167-172 | after a reset and k clicks on Next the start is k * perPage and Prev shows iff k > 0 |
| DirBrowser.LandSaleType | linden/indra/newview/llpaneldirbrowser.cpp:1075-1101 | an auction gives AUCTION_CODE whatever the sale flag; otherwise for-sale gives FOR_SALE_CODE; otherwise PLACE_CODE |
| DirBrowser.ListLandRows | linden/indra/newview/llpaneldirbrowser.cpp:958-1028 | the loop lists exactly the kept rows, in reply order, with their land listing, and counts exactly the kept non-auction rows, which is also the number of listings it produced without the auction code |
| DirBrowser.NonAuctionListingsCount | linden/indra/newview/llpaneldirbrowser.cpp:985-991 | counting the non-auction rows before listing them equals counting the listings without the auction code after |
| DirBrowser.LandRowListedIff | linden/indra/newview/llpaneldirbrowser.cpp:963-991 | a land row is listed iff it is in the reply, its parcel id is not null, it is not over an active price limit, and it is not under an active area limit; non-auction count <= listed <= received |
| DirBrowser.EventRowListedIff | linden/indra/newview/llpaneldirbrowser.cpp:694-707 | an event row is listed iff it was read, its owner is not null, and it is not mature while mature events are hidden |
| DirBrowser.FirstReplyShowsOnePage | linden/indra/newview/llpaneldirbrowser.cpp:1265-1278 | the first reply after a new search shows exactly min(rows, perPage) rows |
| DirBrowser.UpdateResultCount | linden/indra/newview/llpaneldirbrowser.cpp:175-211 | the list becomes enabled iff it was enabled already or results exist and it holds rows; nothing else changes |
| DirBrowser.BeginReply | linden/indra/newview/llpaneldirbrowser.cpp:665-674 | results now exist, and a list that was still disabled is emptied |
| DirBrowser.PageRoom | linden/indra/newview/llpaneldirbrowser.cpp:1265-1286 | the rows of a reply that fit the page: all of them on the "all_panel"; otherwise never more than what is left of the page and all of them when the reply does not pass the page; always the count showNextButton returns for the reply, clamped at 0 |
| DirBrowser.EventsReply | linden/indra/newview/llpaneldirbrowser.cpp:646-759 | counts all rows as received; lists exactly the kept rows among the first PageRoom rows of the reply, after the old rows only if the list was enabled; Next shows iff the new received total passes a page, Prev is kept, and the "all_panel" reads every row and hides both buttons; the list ends enabled iff it was or it holds rows; name, page size and search position are kept |
| DirBrowser.LandReply | linden/indra/newview/llpaneldirbrowser.cpp:916-1042 | counts all rows as received; lists every kept row with no page trimming; Next shows iff the new received total passes a page, Prev is kept, and the "all_panel" hides both buttons; the list ends enabled iff it was or it holds rows; name, page size and search position are kept |
| DirBrowser.DisabledListRefilled | linden/indra/newview/llpaneldirbrowser.cpp:940-950 | a reply to a search whose list is still disabled leaves exactly the reply's listed rows, and enables the list iff it listed at least one |
| DirBrowser.LandNextIgnoresAuctions | linden/indra/newview/llpaneldirbrowser.cpp:1030-1033 | two land replies of equal length give the same Next button, whatever their auction split or filter limits |
| DirBrowser.Dispatch | linden/indra/newview/llpaneldirbrowser.cpp:927-936 | a reply whose query id is not routed changes nothing; otherwise the panel the id routes to receives exactly the land or events reply handling, no other panel or route changes, and the routing invariant is kept |
| DirBrowser.DispatchReachesIssuerOnly | linden/indra/newview/llpaneldirbrowser.cpp:927-936 | a panel changes only if the reply's query id routes to it; the panel it routes to then has search results and, with a results list, has counted every row of the reply |
| DirBrowser.SetupNewSearch | linden/indra/newview/llpaneldirbrowser.cpp:1163-1192 | the old query id is no longer routed and the new id routes to the panel; no other route is added, removed or changed; the panel is exactly the old one with the new id, an empty and disabled list, nothing received and no results; other panels are unchanged |
| DirBrowser.FirstLandReplyAfterNewSearch | linden/indra/newview/llpaneldirbrowser.cpp:1163-1192 | the first land reply to a new search leaves exactly its kept rows in the list, counts all its rows, and enables the list iff it listed any |
| DirBrowser.RemovePanel | linden/indra/newview/llpaneldirbrowser.cpp:108-113 | after a panel is destroyed its query id is no longer routed and no route leads to it; every other route is kept, no route is added, and the routing invariant is kept |
| DirBrowser.StaleReplyDropped | linden/indra/newview/llpaneldirbrowser.cpp:1168-1172 | after a new search, a reply carrying the panel's previous query id is ignored |
| DirBrowser.RoutingIsUnique | linden/indra/newview/llpaneldirbrowser.cpp:1168-1172 | two routed query ids that reach the same panel are the same id |

## Left out

- Real threads, `LLMutex` blocking, and the unlocked race between `ping` and the sweep are left out. Each operation is one atomic step. The mutex is reduced to a "held" flag, which must be free between steps.
- `ms_sleep` becomes an advance of the abstract clock.
- `raise(SIGQUIT)`, `RaiseException` and the log line become the `aborted` flag. The model still runs the unlock that follows the signal.
- `F32` timeouts in seconds become whole milliseconds on a natural-number clock.
- `LLTimer` is not part of this model. Its semantics are assumed:
  - `start` sets started and `stop` clears it;
  - `setTimerExpirySec(d)` sets the expiry to now + d;
  - `hasExpired` means the clock has reached the expiry;
  - a default timer counts as started and has expiry 0, so it has already expired.
- Calling `cleanup` twice is left out: `Watchdog.Cleanup` requires that neither pointer is already deleted. Locking through a deleted mutex is undefined behaviour in C++, so every locking step requires that the mutex was not deleted.
- Real pointers are replaced by abstract entry ids. The `Valid` invariant says the registry only holds ids of constructed entries. Every step keeps it, with one condition: `Watchdog.Add` keeps it only when the added id is a constructed entry. That is how the source calls it, since `LLWatchdogEntry::start` passes `this`.
- `WatchdogTimeout` and `Watchdog` do not model the Windows/other platform split of the abort; both platforms are one `aborted` flag.
- The list widget is reduced to its rows. In `DirBrowser`, the following are left out:
  - LLSD row and column construction, icons, fonts;
  - dwell formatting and price-per-metre formatting;
  - the "Searching..." and "None found." placeholder rows;
  - sorting of the list;
  - focus calls and showing or hiding of the detail panels.
- `getCanSelect` is modelled as the list's enabled flag. `childDisable` and `childEnable` on the list set it.
- The people, places, popular, groups and classified reply handlers, `onCommitList`, `selectByUUID`, `showEvent`, `addClassified` and `newClassified` are left out, since they are display glue. Their query routing works like the modelled handlers.
- `performQuery` and `sendDirFindQuery` are left out. `performQuery` is defined by the subclasses, which are not part of this model, and `sendDirFindQuery` only builds a network message.
- The `draw()` auto-select timer is left out.
- `LLUUID::generate` is replaced by a caller-supplied id that no panel or route uses (`Fresh`).
- `ShowMatureEvents`, `FindLandPrice`, `FindLandArea` and the limit fields are read from settings and widgets. They become parameters.
- The event-flag test against `EVENT_FLAG_MATURE` becomes a boolean `mature` per row, since `lleventflags.h` is not part of this model.
- `S32` counters and page starts are unbounded integers; 32-bit wrap-around is not modelled.

=== FILE: dir_browser.dfy ===
/** The paging arithmetic, row filters and query routing of the viewer's
    directory-search panels (LLPanelDirBrowser in llpaneldirbrowser.cpp).

    A panel is a record of the counters the code keeps, the visibility of its
    two page buttons, and the rows added to its results list in arrival
    order. Query ids are abstract values; the null id is 0.
 */
module DirBrowser {

  /** A UUID; the null UUID is 0. */
  type Uuid = nat

  const NullId: Uuid := 0

  /** The identity of one search panel. */
  type PanelId = nat

  /** The name of the panel for which the page-button logic is disabled. */
  const AllPanel: string := "all_panel"

  /** Results per page a panel starts with. */
  const DefaultResultsPerPage: int := 100

  /** The result kinds this part of the panel assigns to a row. */
  datatype ResultType = AuctionCode | ForSaleCode | PlaceCode | EventCode

  /** One row added to the results list: its id, its name and its kind. */
  datatype Listing = Listing(id: nat, name: string, kind: ResultType)

  /** The state of one search panel that the modelled code reads or writes. */
  datatype Panel = Panel(
    name: string,
    searchId: Uuid,
    searchStart: int,
    resultsPerPage: int,
    resultsReceived: int,
    haveSearchResults: bool,
    hasResultsList: bool,
    selectable: bool,
    listing: seq<Listing>,
    nextVisible: bool,
    prevVisible: bool)

  function Min(a: int, b: int): int
  {
    if a <= b then a else b
  }

  /** A panel as constructed and built: first page, 100 per page, nothing
      received, both page buttons hidden, no query id yet. */
  function NewPanel(name: string, hasResultsList: bool, selectable: bool): (p: Panel)
    ensures p.searchId == NullId && p.searchStart == 0
    ensures p.resultsPerPage == DefaultResultsPerPage && p.resultsReceived == 0
    ensures !p.haveSearchResults && !p.nextVisible && !p.prevVisible && p.listing == []
  {
    Panel(name, NullId, 0, DefaultResultsPerPage, 0, false, hasResultsList, selectable, [], false, false)
  }

  // ---------------------------------------------------------------------
  // Paging
  // ---------------------------------------------------------------------

  /** Decides the Next button from the cumulative count received, and trims a
      reply of `rows` rows (already counted in `resultsReceived`) so that the
      rows shown so far never pass one page. The "all_panel" keeps its rows
      and hides both page buttons. Only the buttons change. */
  function ShowNextButton(p: Panel, rows: int): (r: (Panel, int))
    ensures r.0 == p.(nextVisible := r.0.nextVisible, prevVisible := r.0.prevVisible)
    ensures p.name == AllPanel ==> r.1 == rows && !r.0.nextVisible && !r.0.prevVisible
    ensures p.name != AllPanel ==> r.0.prevVisible == p.prevVisible
    ensures p.name != AllPanel ==> (r.0.nextVisible <==> p.resultsReceived > p.resultsPerPage)
    ensures p.name != AllPanel ==>
      (p.resultsReceived - rows) + r.1 == Min(p.resultsReceived, p.resultsPerPage)
    ensures r.1 <= rows
  {
    if p.name != AllPanel then
      var showNext := p.resultsReceived > p.resultsPerPage;
      var kept := if showNext then rows - (p.resultsReceived - p.resultsPerPage) else rows;
      (p.(nextVisible := showNext), kept)
    else
      (p.(nextVisible := false, prevVisible := false), rows)
  }

  /** How many of a reply's `rows` rows still fit on the current page, given
      the rows received before the reply: all of them on the "all_panel",
      otherwise what is left of `resultsPerPage`, and none once it is used up. */
  function PageRoom(p: Panel, rows: nat): (n: nat)
    ensures n <= rows
    ensures p.name == AllPanel ==> n == rows
    ensures p.name != AllPanel ==> p.resultsReceived + n <= p.resultsPerPage || n == 0
    ensures p.name != AllPanel && p.resultsReceived + rows <= p.resultsPerPage ==> n == rows
    ensures var k := ShowNextButton(p.(resultsReceived := p.resultsReceived + rows), rows).1;
      n == if k < 0 then 0 else k
  {
    if p.name == AllPanel then rows
    else if p.resultsPerPage <= p.resultsReceived then 0
    else Min(rows, p.resultsPerPage - p.resultsReceived)
  }

  /** Moves the search start one page forward and shows the Prev button. */
  function NextPage(p: Panel): (r: Panel)
    ensures r.searchStart - p.searchStart == p.resultsPerPage
    ensures r.prevVisible
    ensures r.(searchStart := p.searchStart, prevVisible := p.prevVisible) == p
  {
    p.(searchStart := p.searchStart + p.resultsPerPage, prevVisible := true)
  }

  /** Moves the search start one page back; Prev stays visible only while
      there is an earlier page. */
  function PrevPage(p: Panel): (r: Panel)
    ensures p.searchStart - r.searchStart == p.resultsPerPage
    ensures r.prevVisible <==> r.searchStart > 0
    ensures r.(searchStart := p.searchStart, prevVisible := p.prevVisible) == p
  {
    var start := p.searchStart - p.resultsPerPage;
    p.(searchStart := start, prevVisible := start > 0)
  }

  /** Back to the first page with both page buttons hidden. */
  function ResetSearchStart(p: Panel): (r: Panel)
    ensures r.searchStart == 0 && !r.nextVisible && !r.prevVisible
    ensures r.(searchStart := p.searchStart, nextVisible := p.nextVisible, prevVisible := p.prevVisible) == p
  {
    p.(searchStart := 0, nextVisible := false, prevVisible := false)
  }

  /** `k` clicks on Next. */
  function NextPages(p: Panel, k: nat): Panel
    decreases k
  {
    if k == 0 then p else NextPages(NextPage(p), k - 1)
  }

  /** Prev undoes Next: the start comes back, and Prev shows iff that start is
      past the first result. */
  lemma PrevUndoesNext(p: Panel)
    ensures PrevPage(NextPage(p)).searchStart == p.searchStart
    ensures PrevPage(NextPage(p)).prevVisible <==> p.searchStart > 0
  {
  }

  /** Next undoes Prev. */
  lemma NextUndoesPrev(p: Panel)
    ensures NextPage(PrevPage(p)).searchStart == p.searchStart
  {
  }

  /** After a reset and `k` clicks on Next the search starts at result
      `k * resultsPerPage`, and Prev shows iff at least one click happened. */
  lemma {:induction false} PagesFromReset(p: Panel, k: nat)
    ensures NextPages(ResetSearchStart(p), k).searchStart == k * p.resultsPerPage
    ensures NextPages(ResetSearchStart(p), k).prevVisible <==> k > 0
    ensures NextPages(ResetSearchStart(p), k).resultsPerPage == p.resultsPerPage
  {
    PagesAdvance(ResetSearchStart(p), k);
  }

  /** `k` clicks on Next advance the start by `k` pages and keep the page size. */
  lemma {:induction false} PagesAdvance(p: Panel, k: nat)
    ensures NextPages(p, k).searchStart == p.searchStart + k * p.resultsPerPage
    ensures NextPages(p, k).resultsPerPage == p.resultsPerPage
    ensures NextPages(p, k).prevVisible <==> k > 0 || p.prevVisible
    decreases k
  {
    if k > 0 {
      PagesAdvance(NextPage(p), k - 1);
      assert NextPage(p).searchStart + (k - 1) * p.resultsPerPage
          == p.searchStart + k * p.resultsPerPage;
    }
  }

  // ---------------------------------------------------------------------
  // Row classification and filters
  // ---------------------------------------------------------------------

  /** The kind createLandSale gives a parcel: an auction whatever its sale
      flag, otherwise for sale if flagged, otherwise a plain place. */
  function LandSaleType(isAuction: bool, isForSale: bool): (t: ResultType)
    ensures t == AuctionCode <==> isAuction
    ensures t == ForSaleCode <==> !isAuction && isForSale
    ensures t == PlaceCode <==> !isAuction && !isForSale
  {
    if isAuction then AuctionCode
    else if isForSale then ForSaleCode
    else PlaceCode
  }

  /** The elements of `s` that satisfy `keep`, in their original order. */
  function Filter<T>(s: seq<T>, keep: T -> bool): seq<T>
    decreases |s|
  {
    if s == [] then []
    else Filter(s[..|s| - 1], keep) + (if keep(s[|s| - 1]) then [s[|s| - 1]] else [])
  }

  /** The number of elements of `s` that satisfy `p`. */
  function Count<T>(s: seq<T>, p: T -> bool): nat
    decreases |s|
  {
    if s == [] then 0
    else Count(s[..|s| - 1], p) + (if p(s[|s| - 1]) then 1 else 0)
  }

  /** An element is kept by the filter exactly when it occurs and satisfies `keep`. */
  lemma {:induction false} FilterMembers<T>(s: seq<T>, keep: T -> bool, x: T)
    ensures x in Filter(s, keep) <==> x in s && keep(x)
    decreases |s|
  {
    if s != [] {
      var init := s[..|s| - 1];
      FilterMembers(init, keep, x);
      assert s == init + [s[|s| - 1]];
    }
  }

  /** Filtering never lengthens, and it drops nothing exactly when every
      element passes. */
  lemma {:induction false} FilterLength<T>(s: seq<T>, keep: T -> bool)
    ensures |Filter(s, keep)| <= |s|
    ensures |Filter(s, keep)| == |s| <==> forall i :: 0 <= i < |s| ==> keep(s[i])
    decreases |s|
  {
    if s != [] {
      var init := s[..|s| - 1];
      FilterLength(init, keep);
      if |Filter(s, keep)| == |s| {
        forall i | 0 <= i < |s|
          ensures keep(s[i])
        {
          if i < |s| - 1 {
            assert s[i] == init[i];
          }
        }
      }
      if forall i :: 0 <= i < |s| ==> keep(s[i]) {
        assert forall i :: 0 <= i < |init| ==> keep(init[i]) by {
          forall i | 0 <= i < |init|
            ensures keep(init[i])
          {
            assert init[i] == s[i];
          }
        }
      }
    }
  }

  /** A count never exceeds the length of what is counted. */
  lemma {:induction false} CountBounded<T>(s: seq<T>, p: T -> bool)
    ensures Count(s, p) <= |s|
    decreases |s|
  {
    if s != [] {
      CountBounded(s[..|s| - 1], p);
    }
  }

  /** One row of a land-search reply. */
  datatype LandRow = LandRow(
    parcelId: Uuid, name: string, auction: bool, forSale: bool, salePrice: int, actualArea: int)

  /** The user's land-search limits: an optional maximum price and an
      optional minimum area. */
  datatype LandLimits = LandLimits(usePrice: bool, limitPrice: int, useArea: bool, limitArea: int)

  /** A land row is listed when its parcel id is not null, it is not over the
      price limit, and it is not under the area limit. */
  predicate LandRowKept(f: LandLimits, r: LandRow)
  {
    && r.parcelId != NullId
    && !(f.usePrice && r.salePrice > f.limitPrice)
    && !(f.useArea && r.actualArea < f.limitArea)
  }

  function LandListing(r: LandRow): Listing
  {
    Listing(r.parcelId, r.name, LandSaleType(r.auction, r.forSale))
  }

  predicate NotAuction(r: LandRow)
  {
    !r.auction
  }

  /** A listing that does not carry the auction code. */
  predicate NotAuctionListing(l: Listing)
  {
    l.kind != AuctionCode
  }

  /** The rows of a land reply that get listed, in reply order. */
  function KeptLand(rows: seq<LandRow>, f: LandLimits): seq<LandRow>
  {
    Filter(rows, r => LandRowKept(f, r))
  }

  /** The loop of processDirLandReply over a reply's rows: lists every kept row
      and counts the kept rows that are not auctions. */
  method ListLandRows(rows: seq<LandRow>, f: LandLimits) returns (added: seq<Listing>, nonAuctionCount: nat)
    ensures |added| == |KeptLand(rows, f)|
    ensures forall i :: 0 <= i < |added| ==> added[i] == LandListing(KeptLand(rows, f)[i])
    ensures nonAuctionCount == Count(KeptLand(rows, f), NotAuction)
    ensures nonAuctionCount == Count(added, NotAuctionListing)
  {
    added := [];
    nonAuctionCount := 0;
    var i := 0;
    while i < |rows|
      invariant 0 <= i <= |rows|
      invariant |added| == |KeptLand(rows[..i], f)|
      invariant forall j :: 0 <= j < |added| ==> added[j] == LandListing(KeptLand(rows[..i], f)[j])
      invariant nonAuctionCount == Count(KeptLand(rows[..i], f), NotAuction)
      invariant nonAuctionCount == Count(added, NotAuctionListing)
    {
      var row := rows[i];
      var before := KeptLand(rows[..i], f);
      assert rows[..i + 1][..i] == rows[..i];
      if LandRowKept(f, row) {
        assert KeptLand(rows[..i + 1], f) == before + [row];
        assert (before + [row])[..|before|] == before;
        assert (added + [LandListing(row)])[..|added|] == added;
        added := added + [LandListing(row)];
        if !row.auction {
          nonAuctionCount := nonAuctionCount + 1;
        }
      } else {
        assert KeptLand(rows[..i + 1], f) == before;
      }
      i := i + 1;
    }
    assert rows[..i] == rows;
  }

  /** One row of an events-search reply; `mature` is the event's mature flag. */
  datatype EventRow = EventRow(ownerId: Uuid, name: string, eventId: nat, mature: bool)

  /** An event row is listed when its owner id is not null and it is not a
      mature event while mature events are hidden. */
  predicate EventRowKept(showMature: bool, r: EventRow)
  {
    r.ownerId != NullId && !(!showMature && r.mature)
  }

  function EventListing(r: EventRow): Listing
  {
    Listing(r.eventId, r.name, EventCode)
  }

  function Listings<T>(rows: seq<T>, toListing: T -> Listing): (r: seq<Listing>)
    ensures |r| == |rows|
    ensures forall i :: 0 <= i < |rows| ==> r[i] == toListing(rows[i])
  {
    seq(|rows|, i requires 0 <= i < |rows| => toListing(rows[i]))
  }

  /** Counting the non-auction rows before listing them, or the listings
      without the auction code after, gives the same number. */
  lemma {:induction false} NonAuctionListingsCount(s: seq<LandRow>)
    ensures Count(Listings(s, LandListing), NotAuctionListing) == Count(s, NotAuction)
    decreases |s|
  {
    if s != [] {
      var init := s[..|s| - 1];
      NonAuctionListingsCount(init);
      assert Listings(s, LandListing)[..|s| - 1] == Listings(init, LandListing);
    }
  }

  /** A land row is listed exactly when it is in the reply and passes the
      null-id, price and area tests; the non-auction count never exceeds the
      number of listed rows. */
  lemma LandRowListedIff(rows: seq<LandRow>, f: LandLimits, x: LandRow)
    ensures x in KeptLand(rows, f) <==> x in rows && LandRowKept(f, x)
    ensures Count(KeptLand(rows, f), NotAuction) <= |KeptLand(rows, f)| <= |rows|
  {
    FilterMembers(rows, r => LandRowKept(f, r), x);
    CountBounded(KeptLand(rows, f), NotAuction);
    FilterLength(rows, r => LandRowKept(f, r));
  }

  /** An event row is listed exactly when it is among the rows read and has
      an owner and is not a hidden mature event. */
  lemma EventRowListedIff(rows: seq<EventRow>, showMature: bool, x: EventRow)
    ensures x in Filter(rows, e => EventRowKept(showMature, e)) <==>
      x in rows && x.ownerId != NullId && (showMature || !x.mature)
  {
    FilterMembers(rows, e => EventRowKept(showMature, e), x);
  }

  /** The first reply after a new search on a paged panel shows at most one
      page: exactly `min(rows, resultsPerPage)` rows. */
  lemma FirstReplyShowsOnePage(p: Panel, rows: nat)
    requires p.name != AllPanel && p.resultsReceived == rows
    ensures ShowNextButton(p, rows).1 == Min(rows, p.resultsPerPage)
  {
  }

  // ---------------------------------------------------------------------
  // Reply handling
  // ---------------------------------------------------------------------

  /** updateResultCount's effect on the list: once results exist and the list
      holds rows, it is enabled. */
  function UpdateResultCount(p: Panel): (r: Panel)
    ensures r.selectable <==> p.selectable || (p.hasResultsList && p.haveSearchResults && |p.listing| > 0)
    ensures r.(selectable := p.selectable) == p
  {
    if p.hasResultsList && p.haveSearchResults && |p.listing| > 0 then p.(selectable := true) else p
  }

  /** The steps every reply handler takes before reading rows, once it has
      found the results list: results now exist, and a list that is still
      disabled is emptied. */
  function BeginReply(p: Panel): (r: Panel)
    requires p.hasResultsList
    ensures r.haveSearchResults
    ensures r.listing == (if p.selectable then p.listing else [])
    ensures r.(haveSearchResults := p.haveSearchResults, listing := p.listing) == p
  {
    var q := p.(haveSearchResults := true);
    if !q.selectable then q.(listing := []) else q
  }

  /** processDirEventsReply on the panel it is routed to: count the rows, trim
      them to the page, then list the kept ones in order. */
  function EventsReply(p: Panel, rows: seq<EventRow>, showMature: bool): (r: Panel)
    ensures r.haveSearchResults
    ensures !p.hasResultsList ==> r == p.(haveSearchResults := true)
    ensures p.hasResultsList ==> r.resultsReceived == p.resultsReceived + |rows|
    ensures p.hasResultsList ==>
      r.listing == (if p.selectable then p.listing else [])
                   + Listings(Filter(rows[..PageRoom(p, |rows|)], e => EventRowKept(showMature, e)), EventListing)
    ensures p.hasResultsList && p.name == AllPanel ==>
      r.listing == (if p.selectable then p.listing else [])
                   + Listings(Filter(rows, e => EventRowKept(showMature, e)), EventListing)
    ensures p.hasResultsList && p.name != AllPanel && p.resultsReceived <= p.resultsPerPage ==>
      |r.listing| - |(if p.selectable then p.listing else [])|
        <= p.resultsPerPage - p.resultsReceived
    ensures p.hasResultsList && p.name != AllPanel ==>
      (r.nextVisible <==> p.resultsReceived + |rows| > p.resultsPerPage)
    ensures p.hasResultsList ==> (r.selectable <==> p.selectable || |r.listing| > 0)
    ensures p.hasResultsList && p.name == AllPanel ==> !r.nextVisible && !r.prevVisible
    ensures p.hasResultsList && p.name != AllPanel ==> r.prevVisible == p.prevVisible
    ensures r.name == p.name && r.resultsPerPage == p.resultsPerPage && r.hasResultsList == p.hasResultsList
    ensures r.searchId == p.searchId && r.searchStart == p.searchStart
  {
    if !p.hasResultsList then p.(haveSearchResults := true)
    else
      var q := BeginReply(p);
      var counted := q.(resultsReceived := q.resultsReceived + |rows|);
      var (shown, n) := ShowNextButton(counted, |rows|);
      var take := if n < 0 then 0 else n;
      assert take == PageRoom(p, |rows|);
      assert p.name == AllPanel ==> rows[..take] == rows;
      var kept := Filter(rows[..take], e => EventRowKept(showMature, e));
      FilterLength(rows[..take], e => EventRowKept(showMature, e));
      UpdateResultCount(shown.(listing := shown.listing + Listings(kept, EventListing)))
  }

  /** processDirLandReply on the panel it is routed to: count the rows, list
      every kept row (no page trimming), then let the non-auction count decide
      the page buttons; the trimmed count that returns is not used. */
  function LandReply(p: Panel, rows: seq<LandRow>, f: LandLimits): (r: Panel)
    ensures r.haveSearchResults
    ensures !p.hasResultsList ==> r == p.(haveSearchResults := true)
    ensures p.hasResultsList ==> r.resultsReceived == p.resultsReceived + |rows|
    ensures p.hasResultsList ==>
      r.listing == (if p.selectable then p.listing else [])
                   + Listings(KeptLand(rows, f), LandListing)
    ensures p.hasResultsList && p.name != AllPanel ==>
      (r.nextVisible <==> p.resultsReceived + |rows| > p.resultsPerPage)
    ensures p.hasResultsList ==> (r.selectable <==> p.selectable || |r.listing| > 0)
    ensures p.hasResultsList && p.name == AllPanel ==> !r.nextVisible && !r.prevVisible
    ensures p.hasResultsList && p.name != AllPanel ==> r.prevVisible == p.prevVisible
    ensures r.name == p.name && r.resultsPerPage == p.resultsPerPage && r.hasResultsList == p.hasResultsList
    ensures r.searchId == p.searchId && r.searchStart == p.searchStart
  {
    if !p.hasResultsList then p.(haveSearchResults := true)
    else
      var q := BeginReply(p);
      var counted := q.(resultsReceived := q.resultsReceived + |rows|);
      var kept := KeptLand(rows, f);
      var listed := counted.(listing := counted.listing + Listings(kept, LandListing));
      var (shown, _) := ShowNextButton(listed, Count(kept, NotAuction));
      UpdateResultCount(shown)
  }

  /** A reply to a search whose list is still disabled replaces the list: if it
      lists at least one row, the list ends enabled and holds exactly the
      reply's rows; if it lists none, the list stays disabled and empty. */
  lemma DisabledListRefilled(p: Panel, land: seq<LandRow>, f: LandLimits, events: seq<EventRow>, showMature: bool)
    requires p.hasResultsList && !p.selectable
    ensures var r := LandReply(p, land, f);
      && (r.selectable <==> |KeptLand(land, f)| > 0)
      && r.listing == Listings(KeptLand(land, f), LandListing)
    ensures var r := EventsReply(p, events, showMature);
      var kept := Filter(events[..PageRoom(p, |events|)], e => EventRowKept(showMature, e));
      && (r.selectable <==> |kept| > 0)
      && r.listing == Listings(kept, EventListing)
  {
  }

  /** The Next button after a land reply depends only on the cumulative count
      received, not on how many rows were auctions or were filtered out. */
  lemma LandNextIgnoresAuctions(p: Panel, a: seq<LandRow>, b: seq<LandRow>, f: LandLimits, g: LandLimits)
    requires |a| == |b|
    ensures LandReply(p, a, f).nextVisible == LandReply(p, b, g).nextVisible
  {
  }

  // ---------------------------------------------------------------------
  // Query routing
  // ---------------------------------------------------------------------

  /** The panels and the global table routing live query ids to them. */
  datatype Directory = Directory(instances: map<Uuid, PanelId>, panels: map<PanelId, Panel>)

  /** Every routed query id leads to an existing panel whose current query it is. */
  predicate Routed(d: Directory)
  {
    forall q :: q in d.instances ==> d.instances[q] in d.panels && d.panels[d.instances[q]].searchId == q
  }

  /** A reply from the server, tagged with the query it answers. */
  datatype Reply =
    | LandReplyMsg(queryId: Uuid, landRows: seq<LandRow>)
    | EventsReplyMsg(queryId: Uuid, eventRows: seq<EventRow>)

  /** A query id no panel uses and the table does not route. */
  predicate Fresh(d: Directory, id: Uuid)
  {
    && id != NullId
    && id !in d.instances
    && forall k :: k in d.panels ==> d.panels[k].searchId != id
  }

  /** Routes a reply to the panel that issued its query; a reply whose query
      id is not routed (an old query) is dropped. */
  function Dispatch(d: Directory, m: Reply, f: LandLimits, showMature: bool): (r: Directory)
    requires Routed(d)
    ensures m.queryId !in d.instances ==> r == d
    ensures r.instances == d.instances && r.panels.Keys == d.panels.Keys
    ensures forall k :: k in d.panels && (m.queryId !in d.instances || k != d.instances[m.queryId]) ==>
      r.panels[k] == d.panels[k]
    ensures m.queryId in d.instances ==>
      var k := d.instances[m.queryId];
      r.panels[k] == match m
        case LandReplyMsg(_, rows) => LandReply(d.panels[k], rows, f)
        case EventsReplyMsg(_, rows) => EventsReply(d.panels[k], rows, showMature)
    ensures Routed(r)
  {
    if m.queryId !in d.instances then d
    else
      var k := d.instances[m.queryId];
      var p := d.panels[k];
      var p' := match m
        case LandReplyMsg(_, rows) => LandReply(p, rows, f)
        case EventsReplyMsg(_, rows) => EventsReply(p, rows, showMature);
      Directory(d.instances, d.panels[k := p'])
  }

  /** The number of rows a reply carries. */
  function RowCount(m: Reply): nat
  {
    match m
    case LandReplyMsg(_, rows) => |rows|
    case EventsReplyMsg(_, rows) => |rows|
  }

  /** A reply changes only the panel its query id routes to; that panel then
      has search results and, when it has a results list, has counted every
      row the reply carries. */
  lemma DispatchReachesIssuerOnly(d: Directory, m: Reply, f: LandLimits, showMature: bool, j: PanelId)
    requires Routed(d) && j in d.panels
    ensures Dispatch(d, m, f, showMature).panels[j] != d.panels[j] ==>
      m.queryId in d.instances && d.instances[m.queryId] == j
    ensures m.queryId in d.instances && d.instances[m.queryId] == j ==>
      && Dispatch(d, m, f, showMature).panels[j].haveSearchResults
      && (d.panels[j].hasResultsList ==>
            Dispatch(d, m, f, showMature).panels[j].resultsReceived == d.panels[j].resultsReceived + RowCount(m))
  {
  }

  /** Starts a new search on a panel: the old query id stops being routed, a
      newId one routes to the panel, and the list and counters restart. */
  function SetupNewSearch(d: Directory, k: PanelId, newId: Uuid): (r: Directory)
    requires Routed(d) && k in d.panels && Fresh(d, newId)
    ensures Routed(r)
    ensures r.panels.Keys == d.panels.Keys
    ensures !d.panels[k].hasResultsList ==> r == d
    ensures d.panels[k].hasResultsList ==>
      && d.panels[k].searchId !in r.instances
      && newId in r.instances && r.instances[newId] == k
      && r.panels[k].searchId == newId
      && r.panels[k].resultsReceived == 0
      && !r.panels[k].haveSearchResults
      && r.panels[k].listing == []
    ensures d.panels[k].hasResultsList ==>
      r.panels[k] == d.panels[k].(searchId := newId, listing := [], selectable := false,
                                  resultsReceived := 0, haveSearchResults := false)
    ensures forall q :: q in d.instances && q != d.panels[k].searchId ==>
      q in r.instances && r.instances[q] == d.instances[q]
    ensures forall q :: q in r.instances ==> q == newId || (q in d.instances && r.instances[q] == d.instances[q])
    ensures forall j :: j in d.panels && j != k ==> r.panels[j] == d.panels[j]
  {
    var p := d.panels[k];
    if !p.hasResultsList then d
    else
      var instances := (d.instances - {p.searchId})[newId := k];
      var p' := p.(searchId := newId, listing := [], selectable := false,
                   resultsReceived := 0, haveSearchResults := false);
      Directory(instances, d.panels[k := UpdateResultCount(p')])
  }

  /** A panel's destructor removes its query id from the routing table. */
  function RemovePanel(d: Directory, k: PanelId): (r: Directory)
    requires Routed(d) && k in d.panels
    ensures Routed(r)
    ensures k !in r.panels
    ensures forall q :: q in d.instances && d.instances[q] == k ==> q !in r.instances
    ensures forall q :: q in r.instances ==> q in d.instances && r.instances[q] == d.instances[q]
    ensures forall q :: q in d.instances && q != d.panels[k].searchId ==>
      q in r.instances && r.instances[q] == d.instances[q]
    ensures forall j :: j in d.panels && j != k ==> j in r.panels && r.panels[j] == d.panels[j]
  {
    var instances := d.instances - {d.panels[k].searchId};
    Directory(instances, d.panels - {k})
  }

  /** Once a panel starts a new search, replies to its previous query are dropped. */
  lemma StaleReplyDropped(d: Directory, k: PanelId, newId: Uuid, m: Reply, f: LandLimits, showMature: bool)
    requires Routed(d) && k in d.panels && Fresh(d, newId)
    requires d.panels[k].hasResultsList
    requires m.queryId == d.panels[k].searchId
    ensures Dispatch(SetupNewSearch(d, k, newId), m, f, showMature) == SetupNewSearch(d, k, newId)
  {
  }

  /** The first land reply to a new search fills the disabled, emptied list
      with exactly the reply's kept rows and counts all of its rows. */
  lemma FirstLandReplyAfterNewSearch(d: Directory, k: PanelId, newId: Uuid, rows: seq<LandRow>,
                                     f: LandLimits, showMature: bool)
    requires Routed(d) && k in d.panels && Fresh(d, newId)
    requires d.panels[k].hasResultsList
    ensures var p := Dispatch(SetupNewSearch(d, k, newId), LandReplyMsg(newId, rows), f, showMature).panels[k];
      && p.listing == Listings(KeptLand(rows, f), LandListing)
      && p.resultsReceived == |rows|
      && (p.selectable <==> |KeptLand(rows, f)| > 0)
  {
  }

  /** A query id reaches at most one panel. */
  lemma RoutingIsUnique(d: Directory, q1: Uuid, q2: Uuid)
    requires Routed(d) && q1 in d.instances && q2 in d.instances
    requires d.instances[q1] == d.instances[q2]
    ensures q1 == q2
  {
  }
}

=== FILE: watchdog.dfy ===
/** The watchdog registry, its sweep and its polling thread (LLWatchdog,
    LLWatchdogEntry and LLWatchdogTimerThread in llwatchdog.cpp), as a state
    machine over one immutable World record.

    Every operation is one atomic step: the poller's sweep never interleaves
    with a registry mutation, and the unlocked ping races are not modelled.
    The fatal signal the sweep raises on a stall is the `aborted` flag.
 */
module Watchdog {
  import opened WatchdogTimeout

  /** The identity of one watchdog entry (its address in the program). */
  type EntryId = nat

  /** A raw pointer the watchdog owns: never set, pointing at a live object,
      or still pointing at an object `cleanup` deleted (it does not reset it). */
  datatype Slot<T> = Null | Live(obj: T) | Deleted

  /** The registry mutex; `held` is true only inside a locked section. */
  datatype Mutex = Mutex(held: bool)

  /** The polling thread: its sleep between sweeps and its stop request. */
  datatype Poller = Poller(sleepMsecs: nat, stopping: bool)

  /** The sleep `init` configures for the poller, in milliseconds. */
  const PollerSleepMsecs: nat := 1000

  /** Everything the watchdog touches: the clock, every constructed entry,
      the registry of entries being watched, the two owned pointers, and
      whether the process has been aborted. */
  datatype World = World(
    now: nat,
    entries: map<EntryId, Timeout>,
    suspects: set<EntryId>,
    mutex: Slot<Mutex>,
    poller: Slot<Poller>,
    aborted: bool)

  /** Between steps every registered entry exists and the lock is free. */
  predicate Valid(w: World)
  {
    && w.suspects <= w.entries.Keys
    && (w.mutex.Live? ==> !w.mutex.obj.held)
  }

  /** Locking goes through the mutex pointer; once `cleanup` deleted the mutex
      any locking is undefined behaviour, so no step may lock. */
  predicate CanLock(w: World)
  {
    !w.mutex.Deleted?
  }

  /** The sweep's question: is some registered entry not alive right now? */
  predicate SomeDead(w: World)
    requires w.suspects <= w.entries.Keys
  {
    exists e :: e in w.suspects && !IsAlive(w.entries[e], w.now)
  }

  /** The watchdog as the process starts: no entries, no mutex, no poller. */
  function Boot(): (w: World)
    ensures Valid(w) && CanLock(w)
    ensures w.suspects == {} && !w.aborted
    ensures w.mutex.Null? && w.poller.Null?
  {
    World(0, map[], {}, Null, Null, false)
  }

  /** Takes the registry lock, or does nothing when there is no mutex. */
  function LockThread(w: World): (r: World)
    requires CanLock(w)
    ensures r.(mutex := w.mutex) == w
    ensures w.mutex.Null? ==> r == w
    ensures w.mutex.Live? ==> r.mutex.Live? && r.mutex.obj.held
  {
    if w.mutex.Live? then w.(mutex := Live(Mutex(true))) else w
  }

  /** Releases the registry lock, or does nothing when there is no mutex. */
  function UnlockThread(w: World): (r: World)
    requires CanLock(w)
    ensures r.(mutex := w.mutex) == w
    ensures w.mutex.Null? ==> r == w
    ensures w.mutex.Live? ==> r.mutex.Live? && !r.mutex.obj.held
  {
    if w.mutex.Live? then w.(mutex := Live(Mutex(false))) else w
  }

  /** Registers an entry under the lock; registering it again changes nothing. */
  function Add(w: World, id: EntryId): (r: World)
    requires CanLock(w)
    ensures forall x :: x in r.suspects <==> x == id || x in w.suspects
    ensures r.(suspects := w.suspects, mutex := w.mutex) == w
    ensures Valid(w) ==> r.mutex == w.mutex
    ensures Valid(w) && id in w.entries ==> Valid(r)
  {
    var locked := LockThread(w);
    UnlockThread(locked.(suspects := locked.suspects + {id}))
  }

  /** Deregisters an entry under the lock; removing an absent entry changes nothing. */
  function Remove(w: World, id: EntryId): (r: World)
    requires CanLock(w)
    ensures forall x :: x in r.suspects <==> x != id && x in w.suspects
    ensures r.(suspects := w.suspects, mutex := w.mutex) == w
    ensures Valid(w) ==> r.mutex == w.mutex && Valid(r)
  {
    var locked := LockThread(w);
    UnlockThread(locked.(suspects := locked.suspects - {id}))
  }

  /** Creates the mutex and the poller (sleeping 1000 ms between sweeps) only
      when neither pointer has ever been set; otherwise nothing happens. */
  function Init(w: World): (r: World)
    ensures w.mutex.Null? && w.poller.Null? ==>
      r.mutex == Live(Mutex(false)) && r.poller == Live(Poller(PollerSleepMsecs, false))
    ensures !(w.mutex.Null? && w.poller.Null?) ==> r == w
    ensures r.(mutex := w.mutex, poller := w.poller) == w
    ensures Valid(w) ==> Valid(r)
  {
    if w.mutex.Null? && w.poller.Null? then
      w.(mutex := Live(Mutex(false)), poller := Live(Poller(PollerSleepMsecs, false)))
    else
      w
  }

  /** LLWatchdogTimerThread::stop: raise the stop flag, then sleep one millisecond. */
  function StopPoller(w: World): (r: World)
    requires w.poller.Live?
    ensures r.poller.Live? && r.poller.obj.stopping
    ensures r.poller.obj.sleepMsecs == w.poller.obj.sleepMsecs
    ensures r.now == w.now + 1
    ensures r.(now := w.now, poller := w.poller) == w
  {
    w.(poller := Live(w.poller.obj.(stopping := true)), now := w.now + 1)
  }

  /** Stops and deletes the poller, then deletes the mutex, each only if
      present. The pointers are not reset, so the caller may call it once. */
  function Cleanup(w: World): (r: World)
    requires !w.mutex.Deleted? && !w.poller.Deleted?
    ensures w.mutex.Null? && w.poller.Null? ==> r == w
    ensures r.mutex == (if w.mutex.Live? then Deleted else Null)
    ensures r.poller == (if w.poller.Live? then Deleted else Null)
    ensures r.suspects == w.suspects && r.entries == w.entries && r.aborted == w.aborted
    ensures r.now == w.now + (if w.poller.Live? then 1 else 0)
    ensures Valid(w) ==> Valid(r)
  {
    var s := if w.poller.Live? then StopPoller(w).(poller := Deleted) else w;
    if s.mutex.Live? then s.(mutex := Deleted) else s
  }

  /** One sweep: under the lock, if some registered entry is not alive, stop
      the poller (when there is one) and abort the process; otherwise nothing
      changes at all. */
  function Run(w: World): (r: World)
    requires Valid(w) && CanLock(w)
    ensures r.aborted <==> w.aborted || SomeDead(w)
    ensures SomeDead(w) && w.poller.Live? ==> r.poller.Live? && r.poller.obj.stopping
    ensures !SomeDead(w) ==> r == w
    ensures r.suspects == w.suspects && r.entries == w.entries && r.mutex == w.mutex
    ensures w.poller.Live? ==> r.poller.Live? && r.poller.obj.sleepMsecs == w.poller.obj.sleepMsecs
    ensures !w.poller.Live? ==> r.poller == w.poller
    ensures r.now == w.now + (if SomeDead(w) && w.poller.Live? then 1 else 0)
    ensures Valid(r)
  {
    var locked := LockThread(w);
    if SomeDead(locked) then
      var s := if locked.poller.Live? then StopPoller(locked) else locked;
      UnlockThread(s.(aborted := true))
    else
      UnlockThread(locked)
  }

  /** One turn of the poller's loop: while not asked to stop, sweep and then
      sleep. A poller that is stopping, or absent, does nothing. */
  function PollerStep(w: World): (r: World)
    requires Valid(w) && CanLock(w)
    ensures Valid(r) && CanLock(r)
    ensures r.suspects == w.suspects && r.entries == w.entries
    ensures !(w.poller.Live? && !w.poller.obj.stopping) ==> r == w
    ensures w.aborted ==> r.aborted
    ensures r.now >= w.now
    ensures w.poller.Live? && !w.poller.obj.stopping && !SomeDead(w) ==>
      r == w.(now := w.now + w.poller.obj.sleepMsecs)
    ensures w.poller.Live? && !w.poller.obj.stopping && SomeDead(w) ==>
      r.aborted && r.poller.Live? && r.poller.obj.stopping
  {
    if w.poller.Live? && !w.poller.obj.stopping then
      var s := Run(w);
      Tick(s, s.poller.obj.sleepMsecs)
    else
      w
  }

  /** `n` turns of the poller's loop: the registry and the entries are never
      touched, the lock is free after every turn, the clock never runs
      backwards, and an abort is never undone. */
  function PollerRun(w: World, n: nat): (r: World)
    requires Valid(w) && CanLock(w)
    ensures Valid(r) && CanLock(r)
    ensures r.suspects == w.suspects && r.entries == w.entries
    ensures w.aborted ==> r.aborted
    ensures r.now >= w.now
    decreases n
  {
    if n == 0 then w else PollerRun(PollerStep(w), n - 1)
  }

  /** Time passes. */
  function Tick(w: World, dt: nat): (r: World)
    ensures r.now == w.now + dt
    ensures r.(now := w.now) == w
  {
    w.(now := w.now + dt)
  }

  /** Constructs a new entry under a fresh identity; it is not registered. */
  function Construct(w: World, id: EntryId): (r: World)
    requires id !in w.entries
    ensures r.entries.Keys == w.entries.Keys + {id}
    ensures r.entries[id] == New()
    ensures forall x :: x in w.entries ==> r.entries[x] == w.entries[x]
    ensures forall t: nat :: !IsAlive(r.entries[id], t)
    ensures Valid(w) ==> Valid(r) && id !in r.suspects
    ensures r.(entries := w.entries) == w
  {
    w.(entries := w.entries[id := New()])
  }

  /** LLWatchdogTimeout::setTimeout on one entry. */
  function SetEntryTimeout(w: World, id: EntryId, d: nat): (r: World)
    requires id in w.entries
    ensures id in r.entries && r.entries[id].timeout == d
    ensures r.entries[id] == w.entries[id].(timeout := d)
    ensures forall x :: x in r.entries <==> x in w.entries
    ensures forall x :: x in w.entries && x != id ==> r.entries[x] == w.entries[x]
    ensures Valid(w) ==> Valid(r)
    ensures Valid(w) ==> (SomeDead(r) <==> SomeDead(w))
    ensures r.(entries := w.entries) == w
  {
    w.(entries := w.entries[id := SetTimeout(w.entries[id], d)])
  }

  /** LLWatchdogTimeout::start: start the timer and ping, and only then
      register, so the sweep never sees the entry with a stale deadline. */
  function Start(w: World, id: EntryId, state: string): (r: World)
    requires id in w.entries && CanLock(w)
    ensures id in r.suspects && id in r.entries
    ensures r.entries[id].timeout == w.entries[id].timeout
    ensures r.entries[id].timer.started
    ensures forall t: nat :: IsAlive(r.entries[id], t) <==> t < w.now + w.entries[id].timeout
    ensures state != "" ==> r.entries[id].pingState == state
    ensures state == "" ==> r.entries[id].pingState == w.entries[id].pingState
    ensures forall x :: x != id ==> (x in r.suspects <==> x in w.suspects)
    ensures forall x :: x in r.entries <==> x in w.entries
    ensures forall x :: x in w.entries && x != id ==> r.entries[x] == w.entries[x]
    ensures r.now == w.now && r.aborted == w.aborted && r.poller == w.poller
    ensures Valid(w) ==> Valid(r) && r.mutex == w.mutex
  {
    var armed := w.(entries := w.entries[id := Arm(w.entries[id], state, w.now)]);
    Add(armed, id)
  }

  /** LLWatchdogTimeout::ping on one entry: no lock, no registry change. */
  function PingEntry(w: World, id: EntryId, state: string): (r: World)
    requires id in w.entries
    ensures id in r.entries
    ensures r.entries[id].timeout == w.entries[id].timeout
    ensures r.entries[id].timer.started == w.entries[id].timer.started
    ensures forall t: nat :: IsAlive(r.entries[id], t) <==>
      w.entries[id].timer.started && t < w.now + w.entries[id].timeout
    ensures state != "" ==> r.entries[id].pingState == state
    ensures state == "" ==> r.entries[id].pingState == w.entries[id].pingState
    ensures forall x :: x in r.entries <==> x in w.entries
    ensures forall x :: x in w.entries && x != id ==> r.entries[x] == w.entries[x]
    ensures Valid(w) ==> Valid(r)
    ensures r.(entries := w.entries) == w
  {
    w.(entries := w.entries[id := Ping(w.entries[id], state, w.now)])
  }

  /** LLWatchdogTimeout::stop: deregister first, then stop the timer. */
  function Stop(w: World, id: EntryId): (r: World)
    requires id in w.entries && CanLock(w)
    ensures id !in r.suspects && id in r.entries
    ensures r.entries[id].timeout == w.entries[id].timeout
    ensures r.entries[id].pingState == w.entries[id].pingState
    ensures !r.entries[id].timer.started
    ensures forall t: nat :: !IsAlive(r.entries[id], t)
    ensures forall x :: x != id ==> (x in r.suspects <==> x in w.suspects)
    ensures forall x :: x in r.entries <==> x in w.entries
    ensures forall x :: x in w.entries && x != id ==> r.entries[x] == w.entries[x]
    ensures r.now == w.now && r.aborted == w.aborted && r.poller == w.poller
    ensures Valid(w) ==> Valid(r) && r.mutex == w.mutex
  {
    var removed := Remove(w, id);
    removed.(entries := removed.entries[id := Halt(removed.entries[id])])
  }

  /** Destroying an entry runs LLWatchdogEntry's destructor, which deregisters
      it; the entry then no longer exists. */
  function Destroy(w: World, id: EntryId): (r: World)
    requires id in w.entries && CanLock(w)
    ensures id !in r.suspects && id !in r.entries
    ensures forall x :: x != id ==> (x in r.suspects <==> x in w.suspects)
    ensures forall x :: x != id ==> (x in r.entries <==> x in w.entries)
    ensures forall x :: x in w.entries && x != id ==> r.entries[x] == w.entries[x]
    ensures r.now == w.now && r.aborted == w.aborted && r.poller == w.poller
    ensures Valid(w) ==> Valid(r) && r.mutex == w.mutex
  {
    var removed := Remove(w, id);
    removed.(entries := removed.entries - {id})
  }

  // ---------------------------------------------------------------------
  // Properties relating several steps
  // ---------------------------------------------------------------------

  /** A newly constructed entry that is given a timeout and pinged, never
      started, is alive exactly until that many milliseconds after the ping:
      its default timer already counts as started. */
  lemma ConstructedEntryPinged(w: World, id: EntryId, d: nat, state: string, t: nat)
    requires id !in w.entries
    ensures var r := PingEntry(SetEntryTimeout(Construct(w, id), id, d), id, state);
      IsAlive(r.entries[id], t) <==> t < w.now + d
  {
  }

  /** A stopped entry stays dead through a ping: only `start` starts its timer
      again. */
  lemma PingAfterStopStaysDead(w: World, id: EntryId, state: string, t: nat)
    requires id in w.entries && CanLock(w)
    ensures !IsAlive(PingEntry(Stop(w, id), id, state).entries[id], t)
  {
  }

  /** A second `init` is a no-op. */
  lemma InitIdempotent(w: World)
    ensures Init(Init(w)) == Init(w)
  {
  }

  /** `cleanup` leaves its pointers dangling, so an `init` after it does not
      bring the watchdog back. */
  lemma InitAfterCleanupIsNoop(w: World)
    requires !w.mutex.Deleted? && !w.poller.Deleted?
    requires w.mutex.Live? || w.poller.Live?
    ensures Init(Cleanup(w)) == Cleanup(w)
  {
  }

  /** Adding an entry that is already registered leaves the state unchanged. */
  lemma AddRegisteredIsNoop(w: World, id: EntryId)
    requires Valid(w) && CanLock(w) && id in w.suspects
    ensures Add(w, id) == w
  {
  }

  /** Removing an entry that is not registered leaves the state unchanged. */
  lemma RemoveAbsentIsNoop(w: World, id: EntryId)
    requires Valid(w) && CanLock(w) && id !in w.suspects
    ensures Remove(w, id) == w
  {
  }

  /** The registry is a set: registration order does not matter. */
  lemma AddCommutes(w: World, a: EntryId, b: EntryId)
    requires Valid(w) && CanLock(w)
    ensures Add(Add(w, a), b) == Add(Add(w, b), a)
  {
  }

  /** Stopping an entry twice is the same as stopping it once. */
  lemma StopIdempotent(w: World, id: EntryId)
    requires Valid(w) && CanLock(w) && id in w.entries
    ensures Stop(Stop(w, id), id) == Stop(w, id)
  {
  }

  /** Without a mutex the locking calls are no-ops, so `add`, `remove` and
      `run` do the same with or without a prior `init`, apart from the lock. */
  lemma LockingIsInvisible(w: World, id: EntryId)
    requires Valid(w) && CanLock(w)
    ensures Add(w, id) == Add(w.(mutex := Null), id).(mutex := w.mutex)
    ensures Remove(w, id) == Remove(w.(mutex := Null), id).(mutex := w.mutex)
    ensures Run(w) == Run(w.(mutex := Null)).(mutex := w.mutex)
  {
  }

  /** A stopped entry is never what a sweep finds dead: after `stop` the sweep
      aborts exactly when some other registered entry is dead. */
  lemma StoppedEntryIsNotSwept(w: World, id: EntryId)
    requires Valid(w) && CanLock(w) && id in w.entries
    ensures SomeDead(Stop(w, id)) <==>
      exists e :: e in w.suspects && e != id && !IsAlive(w.entries[e], w.now)
  {
  }

  /** An entry started and then left unpinged for at least its timeout makes
      the next sweep abort, whatever else is registered. */
  lemma MissedHeartbeatAborts(w: World, id: EntryId, state: string, dt: nat)
    requires Valid(w) && CanLock(w) && id in w.entries
    requires dt >= w.entries[id].timeout
    ensures Run(Tick(Start(w, id, state), dt)).aborted
  {
  }

  /** A poller that is stopping (or absent) performs no further sweeps. */
  lemma {:induction false} StoppedPollerIsIdle(w: World, n: nat)
    requires Valid(w) && CanLock(w)
    requires !(w.poller.Live? && !w.poller.obj.stopping)
    ensures PollerRun(w, n) == w
    decreases n
  {
    if n > 0 {
      assert PollerStep(w) == w;
      StoppedPollerIsIdle(w, n - 1);
    }
  }

  /** The turn that finds a dead entry aborts and stops the poller, and from
      then on the poller does nothing. */
  lemma AbortEndsPolling(w: World, n: nat)
    requires Valid(w) && CanLock(w)
    requires w.poller.Live? && !w.poller.obj.stopping && SomeDead(w)
    ensures PollerStep(w).aborted
    ensures PollerRun(PollerStep(w), n) == PollerStep(w)
  {
    StoppedPollerIsIdle(PollerStep(w), n);
  }

  /** While every registered entry stays alive, `n` turns of the poller only
      advance the clock by `n` sleeps. */
  lemma {:induction false} HealthyPollingOnlySleeps(w: World, n: nat)
    requires Valid(w) && CanLock(w)
    requires w.poller.Live? && !w.poller.obj.stopping
    requires n > 0 ==> forall e :: e in w.suspects ==>
      IsAlive(w.entries[e], w.now + (n - 1) * w.poller.obj.sleepMsecs)
    ensures PollerRun(w, n) == w.(now := w.now + n * w.poller.obj.sleepMsecs)
    decreases n
  {
    if n > 0 {
      var p := w.poller.obj.sleepMsecs;
      assert !SomeDead(w) by {
        forall e | e in w.suspects
          ensures IsAlive(w.entries[e], w.now)
        {
          assert IsAlive(w.entries[e], w.now + (n - 1) * p);
          assert w.now <= w.now + (n - 1) * p;
        }
      }
      var s := PollerStep(w);
      assert s == w.(now := w.now + p);
      assert n - 1 > 0 ==> s.now + (n - 2) * p == w.now + (n - 1) * p;
      HealthyPollingOnlySleeps(s, n - 1);
    }
  }
}

=== FILE: watchdog_timeout.dfy ===
/** The per-entry heartbeat record of the viewer's liveness watchdog
    (LLWatchdogTimeout in llwatchdog.cpp).

    Time is an abstract clock counting milliseconds; the record's timeout is a
    whole number of milliseconds. The timer the record owns is described only
    by what the record uses of it: a started flag and an absolute expiry
    instant, with "expired" meaning the clock has reached that instant.
 */
module WatchdogTimeout {

  /** The countdown an entry owns: whether it runs, and the instant it expires. */
  datatype Timer = Timer(started: bool, expiry: nat)

  /** An entry's state: its timeout, the ping state last set by a non-empty ping, its timer. */
  datatype Timeout = Timeout(timeout: nat, pingState: string, timer: Timer)

  /** The ping state a freshly constructed entry carries. */
  const UninitString: string := "uninitialized"

  predicate HasExpired(t: Timer, now: nat)
  {
    now >= t.expiry
  }

  /** An entry is alive when its timer runs and has not yet expired. Without
      a ping, liveness only ends: alive now means alive at every earlier
      instant, and dead now means dead at every later one. */
  predicate IsAlive(e: Timeout, now: nat)
    ensures IsAlive(e, now) ==> forall t: nat :: t <= now ==> e.timer.started && !HasExpired(e.timer, t)
    ensures !IsAlive(e, now) ==> forall t: nat :: t >= now ==> !(e.timer.started && !HasExpired(e.timer, t))
  {
    e.timer.started && !HasExpired(e.timer, now)
  }

  /** A freshly constructed entry: timeout 0, the "uninitialized" ping state, and
      a default timer, which counts as started but expires at instant 0, so the
      entry is dead at every instant until it is pinged with a positive timeout. */
  function New(): (e: Timeout)
    ensures e.timeout == 0 && e.pingState == UninitString
    ensures e.timer.started
    ensures forall now: nat :: !IsAlive(e, now)
  {
    Timeout(0, UninitString, Timer(true, 0))
  }

  /** Changes the timeout only; liveness is untouched until the next ping. */
  function SetTimeout(e: Timeout, d: nat): (r: Timeout)
    ensures r.timeout == d && r.pingState == e.pingState
    ensures r.timer == e.timer
    ensures forall now: nat :: IsAlive(r, now) <==> IsAlive(e, now)
  {
    e.(timeout := d)
  }

  /** Refreshes the deadline to `now + timeout`; a non-empty state replaces the
      previous one, an empty state keeps it. The started flag and the timeout
      are left as they were. */
  function Ping(e: Timeout, state: string, now: nat): (r: Timeout)
    ensures state == "" ==> r.pingState == e.pingState
    ensures state != "" ==> r.pingState == state
    ensures r.timeout == e.timeout && r.timer.started == e.timer.started
    ensures forall later: nat :: IsAlive(r, later) <==> e.timer.started && later < now + e.timeout
  {
    var s := if state != "" then state else e.pingState;
    Timeout(e.timeout, s, e.timer.(expiry := now + e.timeout))
  }

  /** The timer half of LLWatchdogTimeout::start: start the timer, then ping.
      The entry is alive exactly until `timeout` milliseconds after `now`. */
  function Arm(e: Timeout, state: string, now: nat): (r: Timeout)
    ensures r.timer.started
    ensures r.timeout == e.timeout
    ensures state == "" ==> r.pingState == e.pingState
    ensures state != "" ==> r.pingState == state
    ensures forall later: nat :: IsAlive(r, later) <==> later < now + e.timeout
  {
    Ping(e.(timer := e.timer.(started := true)), state, now)
  }

  /** The timer half of LLWatchdogTimeout::stop: the entry is dead from then on. */
  function Halt(e: Timeout): (r: Timeout)
    ensures r.timeout == e.timeout && r.pingState == e.pingState
    ensures !r.timer.started
    ensures forall now: nat :: !IsAlive(r, now)
  {
    e.(timer := e.timer.(started := false))
  }

  /** A started entry pinged at `now` survives a wait of `dt` milliseconds
      exactly when `dt` is shorter than its timeout. */
  lemma PingThenWait(e: Timeout, state: string, now: nat, dt: nat)
    requires e.timer.started
    ensures IsAlive(Ping(e, state, now), now + dt) <==> dt < e.timeout
  {
  }

  /** Only a positive timeout makes an entry alive at the instant it is pinged:
      with timeout 0 the deadline is the current instant, already expired. */
  lemma AliveRightAfterPing(e: Timeout, state: string, now: nat)
    requires e.timer.started
    ensures IsAlive(Ping(e, state, now), now) <==> e.timeout > 0
  {
  }

  /** Without a ping an entry cannot come back to life: dead at one instant,
      dead at every later one. */
  lemma DeadStaysDead(e: Timeout, now: nat, later: nat)
    requires !IsAlive(e, now) && now <= later
    ensures !IsAlive(e, later)
  {
  }

  /** A fresh entry given a timeout and pinged is alive exactly until that many
      milliseconds after the ping, with no separate start: the default timer
      already counts as started. */
  lemma FreshEntryPinged(d: nat, state: string, now: nat, later: nat)
    ensures IsAlive(Ping(SetTimeout(New(), d), state, now), later) <==> later < now + d
  {
  }

  /** Halting twice is halting once. */
  lemma HaltIdempotent(e: Timeout)
    ensures Halt(Halt(e)) == Halt(e)
  {
  }
}
